=== FILE: README.md ===
# Blog account, session and post store

A model of the data layer of a small client-only blog (`scrp.js`). The blog
keeps three values in browser local storage:

- `users`: the registered accounts. Each holds a name, an email and the
  SHA-256 digest of the password as lower-case hex.
- `blogPosts`: the posts, newest first.
- `currentUser`: the logged-in user, or nothing.

The sign-up, login and create-post form handlers, and the logout, delete-post
and delete-all-my-posts buttons, are check-then-update steps on these three
values. The model writes each step as a pure function from the old `Store`
and the form fields to an `Outcome`. An `Outcome` holds the new store and
the error message shown, if any. The pure validators, the hex step of the
password hasher, and the post-selection parts of the two post lists are
modelled too.

Modules:

- `Options`: the `Option` type.
- `Seqs`: `Array.prototype.filter` as `Filter`. `IsFilterOf` describes a
  filter result independently, and `FilterUnique` proves that the
  description pins the result down.
- `Hex`: the `toString(16).padStart(2, '0')` byte encoding, and its inverse
  `Decode`.
- `Validation`: `validateEmail` and `validatePassword`. `MatchesEmailPattern`
  states the email regular expression as a split of the string into local
  part, `@`, domain, `.` and top-level domain.
- `Hashing`: `hashPassword`. SHA-256 itself is the parameter `sha256`.
- `RecordStore`: accounts, sessions, posts, the store, error messages, and
  the state at page load.
- `Accounts`: sign-up, login and logout.
- `Posts`: create, delete and delete-all-mine.
- `Views`: the "my posts" list, the delete-button rule and the excerpt.
- `Traces`: commands, runs of commands, and the store invariant
  `Consistent`, which holds at a first visit and is kept by every command.

Behaviour worth knowing:

- `createPost` checks for empty fields first, then for an image that failed
  to compress, and only then for a session (scrp.js:399-420).
- Post ids are `blogPosts.length + 1` at creation (scrp.js:424), so they
  can repeat after a deletion (`Traces.PostIdsCanRepeat`).
- `deletePost(id)` removes every post with that id, whoever wrote it and
  whoever is logged in (scrp.js:111).
- Posts belong to an author name, not to an account, and sign-up checks
  only that the email is new (scrp.js:287-315), so two accounts may share a
  name. Delete-all removes every post under the session's name, including
  posts written from another account or the sample posts
  (`Traces.SharedNameDeletesOthersPosts`).
- `deleteAllUserPosts` returns nothing (scrp.js:462-475);
  `Views.DeleteAllEmptiesMyPosts` states how many posts it removes.
- The list selector of the create page (scrp.js:169-171) returns every post
  when nobody is logged in, each listed with a delete button. On page load,
  though, `checkAuth` (scrp.js:152-158, called at scrp.js:447) sends a
  logged-out visitor of the create page to the login page, so that list is
  drawn only as the page navigates away. `Views.LoggedOutListShowsEveryPost`
  states the selector's result, not what a visitor can use.
- The messages for empty fields and for an image that failed to compress
  (scrp.js:400 and scrp.js:409) are shown without a form id. In a browser,
  `showError` then finds no form and throws, so the message never appears.
  The handler stops either way and the store is unchanged, which is what
  the model states.

## Model

| member | source | states |
|---|---|---|
| Seqs.Filter | scrp.js:111 | the result is a subsequence of the input; it holds exactly the elements passing the test, each as often as in the input; an element is in it iff it is in the input and passes |
| Seqs.FilterUnique | scrp.js:111 | any sequence that is a subsequence, passes the test throughout and has the kept multiplicities equals the filter result |
| Seqs.SubsequenceCounts | scrp.js:111 | a subsequence never holds an element more often than the sequence it came from |
| Seqs.FilterIdempotent | scrp.js:111 | filtering a filtered sequence again with the same test changes nothing |
| Seqs.FilterPartition | scrp.js:469 | the elements kept by a test and by its negation together number exactly the input's length |
| Hex.ByteToHex | scrp.js:231 | `toString(16)` padded to width 2 is the fixed two-digit form, high digit first, so bytes below 16 get a leading `0` |
| Hex.Encode | scrp.js:230-232 | the encoding has two characters per byte, each in `[0-9a-f]` |
| Hex.DigitChar | scrp.js:231 | every digit `toString(16)` produces is in `[0-9a-f]` |
| Hex.ToBase16 | scrp.js:231 | `toString(16)` of a byte is one digit below 16 and two digits from 16 on, never with a leading `0`, and its digits read back as the byte's value |
| Hex.PadStart | scrp.js:231 | `padStart` leaves a string that is long enough alone, and otherwise puts fill characters in front of it up to the width |
| Hex.DigitRoundTrip | scrp.js:231 | reading back the digit character of a value below 16 gives that value |
| Hex.DecodeEncode | scrp.js:230-232 | decoding the encoding of any byte string gives the byte string back |
| Hex.EncodeDecode | scrp.js:230-232 | any text that decodes is the encoding of what it decodes to |
| Hex.EncodeInjective | scrp.js:230-232 | two byte strings have the same encoding iff they are equal |
| Hex.EncodeDigestLength | scrp.js:229-232 | a 32-byte SHA-256 digest encodes to 64 characters |
| Validation.IndexOf | scrp.js:88 | the first `@` of the address: the index holds it and no earlier index does, or no index holds it |
| Validation.LastIndexOf | scrp.js:88 | the last `.` of the address: the index holds it and no later index does, or no index holds it |
| Validation.ValidateEmail | scrp.js:87-90 | `validateEmail` accepts a string iff it splits into a non-empty `[a-zA-Z0-9._%+-]` part, `@`, a non-empty `[a-zA-Z0-9.-]` part, `.`, and at least two ASCII letters to the end |
| Validation.LandmarksDecidePattern | scrp.js:88 | checking the split at the first `@` and the last `.` accepts exactly the strings the regular expression matches, so no other split needs trying |
| Validation.SplitHasOneAt | scrp.js:88 | a string the expression matches contains exactly one `@` |
| Validation.NoAtAfter | scrp.js:88 | in a matched string nothing after the `@` is an `@` |
| Validation.ValidatePassword | scrp.js:93-96 | a password passes iff it has at least six characters (for text inside the Basic Multilingual Plane, JavaScript's `.length`), so an accepted password is never empty |
| Validation.AcceptedEmailShape | scrp.js:87-90 | an accepted address has exactly one `@`, does not start with it, and ends with a `.` followed by at least two letters |
| Validation.DotOnlyDomainAccepted | scrp.js:88 | the expression accepts `a@..co`, whose domain is only dots |
| Validation.OneLetterTldRejected | scrp.js:88 | the expression rejects `a@b.c`, whose top-level domain has one letter |
| Hashing.HashPassword | scrp.js:226-233 | the stored form of a password is 64 lower-case hex characters and decodes to the password's SHA-256 digest |
| Hashing.HashPasswordMatchesDigest | scrp.js:226-233 | two passwords hash to the same text iff their digests are equal |
| RecordStore.SamplePosts | scrp.js:8-25 | the sample data is two posts, with ids 1 and 2 in that order |
| RecordStore.Load | scrp.js:1-25 | with nothing saved, the page starts with no accounts, the two sample posts with ids 1 and 2, and no session; a saved record, even an empty list, is used as saved |
| Accounts.Signup | scrp.js:287-336 | the first failing check decides the error, in the order name under 3, bad email, email taken, password under 6, confirmation differs; a failure changes nothing; success appends the account with the hashed password last, keeps earlier accounts and the posts, sets the session to the new name and email, and keeps emails pairwise distinct |
| Accounts.EmailRegistered | scrp.js:300 | an address is registered iff some account has it; an address no account has cannot be found by login, whatever the password digest |
| Accounts.FindAccount | scrp.js:258 | the first account with this email and digest, or none when no account has both |
| Accounts.Login | scrp.js:243-274 | a bad email and then a short password are rejected before any lookup; once both pass, login succeeds iff some account has this exact email and this password's digest, and any failure is "invalid credentials"; success sets the session to the name of the first such account, as `users.find` picks it, and the typed email, and changes nothing else; a failure changes nothing |
| Accounts.Logout | scrp.js:119-121 | the session is cleared and accounts and posts stay as they were |
| Accounts.WrongPasswordRejected | scrp.js:255-273 | with distinct emails, a registered email with a wrong password is rejected as invalid credentials and nothing changes |
| Accounts.LoginNamesTheAccount | scrp.js:255-265 | with distinct emails, the right password for a registered email logs in, and the session carries that account's name and email |
| Accounts.LoginFailureIsUniform | scrp.js:243-273 | the error of a failed login is the same whatever accounts exist, so it does not reveal whether the email is registered |
| Accounts.SignupThenLogin | scrp.js:317-336 | after a successful sign-up and a logout, logging in with the same email and password succeeds and the session names the new account |
| Posts.CreatePost | scrp.js:399-432 | empty title or content is rejected first, then an unreadable image, then a missing session, each leaving the store unchanged; on success the new post is at the front with id old length + 1, the session's name as author, and the old posts after it unchanged |
| Posts.DeletePost | scrp.js:109-113 | without confirmation nothing changes; with it, exactly the posts with other ids remain, in order, whoever is logged in |
| Posts.DeleteAllUserPosts | scrp.js:462-470 | without a session it is refused and nothing changes; without confirmation nothing changes; with both, exactly the posts under other author names remain, in order, and the number removed is the number of posts whose author equals the session's name |
| Posts.DeletePostIdempotent | scrp.js:109-113 | deleting the same id twice gives the same posts as deleting it once |
| Posts.DeletePostCharacterised | scrp.js:111 | any order-preserving selection of exactly the posts with other ids equals the result of the delete |
| Views.MyPosts | scrp.js:169-171 | logged in, the create page lists exactly the posts whose author equals the session's name, in order; logged out, it lists all posts |
| Views.Excerpt | scrp.js:210 | the excerpt is a prefix of the content, 100 characters long or the whole shorter content |
| Views.ShowsDeleteButton | scrp.js:215 | a home-page card shows a delete button only when someone is logged in; then it shows one iff the post's author equals the session's name, that is, iff the post is on the create-page list |
| Views.DeleteButtonsMatchMyPosts | scrp.js:215 | logged in, a home-page card has a delete button iff its post is on the create-page list, whose posts are those whose author equals the session's name |
| Views.LoggedOutListShowsEveryPost | scrp.js:169-183 | logged out, no home-page card has a delete button, while the create-page selector returns every post and deleting a post's id removes it |
| Views.DeleteAllEmptiesMyPosts | scrp.js:462-470 | after deleting all posts whose author equals the session's name, the create-page list is empty, the number removed equals the list's former length, and every post under another author name remains |
| Traces.FirstVisitConsistent | scrp.js:1-25 | the store loaded with nothing saved satisfies the invariant: distinct emails, well-formed accounts and posts, a session backed by an account |
| Traces.SignupKeepsConsistent | scrp.js:287-336 | sign-up keeps the invariant: the new account is well formed, its email is new, and the session it sets names it |
| Traces.LoginKeepsConsistent | scrp.js:255-265 | login keeps the invariant: the session it sets names a stored account |
| Traces.CreatePostKeepsConsistent | scrp.js:399-432 | creating a post keeps the invariant: the new post has a positive id and non-empty title and content |
| Traces.DeletePostKeepsConsistent | scrp.js:109-113 | deleting by id keeps the invariant, since the remaining posts were all there before |
| Traces.DeleteAllKeepsConsistent | scrp.js:462-470 | deleting all posts whose author equals the session's name keeps the invariant, since the remaining posts were all there before |
| Traces.StepPreservesConsistent | scrp.js:109-470 | every command keeps the invariant |
| Traces.RunPreservesConsistent | scrp.js:109-470 | any sequence of commands keeps the invariant |
| Traces.RunKeepsAccounts | scrp.js:328 | accounts are only ever appended: the accounts before a run are a prefix of those after it |
| Traces.SharedNameDeletesOthersPosts | scrp.js:462-470 | on a first visit, a new account named like the author of the second sample post signs up successfully, and its delete-all removes that sample post and keeps the other |
| Traces.PostIdsCanRepeat | scrp.js:424 | on a first visit, after a successful sign-up, deleting id 1 and creating a post leaves two posts with id 2, and deleting id 2 then removes both |
| Traces.SessionTransitions | scrp.js:119-336 | only a successful sign-up or login sets the session, and it sets it to the typed email; logout clears it; post commands leave it alone |

## Left out

- Rendering and messages are not modelled. This covers `showError`,
  `showSuccess`, the HTML templates, both definitions of `updateNavigation`,
  and the `'...'` appended after the excerpt. They are display only; the
  error shown is the `Outcome`'s `error`.
- `setTimeout` redirects, `window.location` and `checkAuth` are not modelled.
  They are navigation.
- `confirm()` dialogs are the `confirmed` parameter.
- `localStorage` and `JSON.stringify`/`parse` are not modelled. Each
  mutation saves at once, so the saved copy is taken to equal the in-memory
  one.
- SHA-256 and the `TextEncoder` UTF-8 step are not modelled. They are
  browser calls, so the digest is the parameter `sha256`, a function with
  32-byte results about which nothing else is assumed.
- `compressImage` and `convertImageToBase64` are not modelled. They use
  FileReader, canvas and JPEG encoding, with floating-point resizing. The
  form's image arrives as an `ImageUpload`: no file, the compressed data URL,
  or a failure.
- The creation date comes from the wall clock, so it is the `date`
  parameter.
- The `catch` around post creation (scrp.js:438-441) is not modelled. It
  fires only when saving to storage throws, and storage failures are outside
  the model. In the source the post would already have been prepended in
  memory by then.
- `DeviceManager`, touch and lazy-load handling, smooth scrolling and the
  generic `fetch` form submission are not modelled. They are browser
  environment detection, event wiring and network I/O.
- Every handler is taken to run to completion before the next starts. In the
  source the sign-up handler checks that the email is free (scrp.js:300),
  then awaits the password digest (scrp.js:318), and only then appends the
  account (scrp.js:328). A second submission handled during that wait also
  passes the check, and the two can append two accounts with the same
  email. Likewise, the create-post handler awaits `compressImage`
  (scrp.js:407) before it reads the post count. `DistinctEmails` being kept
  by `Signup`, and `Traces.RunPreservesConsistent`, hold only for handlers
  that do not interleave.
- Text outside the Basic Multilingual Plane. A Dafny `char` is a Unicode
  scalar value, so a character such as an emoji counts once in `|s|` but
  twice in JavaScript's `.length`, which counts UTF-16 code units. The
  model represents only text inside the Basic Multilingual Plane, where the
  two counts agree. The validators only look at ASCII characters.
- Accounts.Signup: the name check `name.length < 3` (scrp.js:288) counts
  characters, not UTF-16 code units, so it agrees with the source only for
  names inside the Basic Multilingual Plane.
- Validation.ValidatePassword: the length check (scrp.js:95) counts
  characters, not UTF-16 code units. A password of three emoji is rejected
  here but accepted by the source, whose `.length` is six.
- Views.Excerpt: `substring(0, 100)` (scrp.js:210) counts UTF-16 code
  units and can cut a surrogate pair in half; the model's prefix counts
  characters and cannot.

=== FILE: accounts.dfy ===
/** Sign-up, login and logout: the handlers of the two account forms and the
    logout button, as functions from the store and the form fields to an
    `Outcome`. Together they move the session between Anonymous
    (`currentUser == None`) and Authenticated. */
module Accounts {
  import opened Options
  import opened RecordStore
  import opened Validation
  import opened Hashing

  /** `users.some(user => user.email === email)`: exact, case-sensitive. An
      address no account has cannot log in, whatever the password. */
  predicate EmailRegistered(users: seq<Account>, email: string): (found: bool)
    ensures !found ==> forall digest :: FindAccount(users, email, digest, 0).None?
    ensures found <==> exists a :: a in users && a.email == email
  {
    exists i :: 0 <= i < |users| && users[i].email == email
  }

  /** No two accounts share an email address. */
  ghost predicate DistinctEmails(users: seq<Account>) {
    forall i, j :: 0 <= i < j < |users| ==> users[i].email != users[j].email
  }

  /** The sign-up handler. The checks run in a fixed order and the first
      that fails decides the message; only when all pass is the account
      appended and the session set. */
  function Signup(sha256: Sha256, st: Store, name: string, email: string, password: string, confirmPassword: string): (r: Outcome)
    ensures |name| < 3 ==> r.error == Some(NameTooShort)
    ensures |name| >= 3 && !ValidateEmail(email) ==> r.error == Some(InvalidEmail)
    ensures |name| >= 3 && ValidateEmail(email) && EmailRegistered(st.users, email) ==> r.error == Some(EmailAlreadyRegistered)
    ensures |name| >= 3 && ValidateEmail(email) && !EmailRegistered(st.users, email) ==>
              && (!ValidatePassword(password) ==> r.error == Some(PasswordTooShort))
              && (ValidatePassword(password) && password != confirmPassword ==> r.error == Some(PasswordsDoNotMatch))
    ensures r.error.None? <==>
              |name| >= 3 && ValidateEmail(email) && !EmailRegistered(st.users, email) && ValidatePassword(password) && password == confirmPassword
    ensures r.error.Some? ==> r.store == st
    ensures r.error.None? ==>
              && r.store.users == st.users + [Account(name, email, HashPassword(sha256, password))]
              && r.store.currentUser == Some(Session(name, email))
              && r.store.blogPosts == st.blogPosts
    ensures r.error.None? ==> IsDigestHex(r.store.users[|st.users|].password)
    ensures DistinctEmails(st.users) ==> DistinctEmails(r.store.users)
  {
    if |name| < 3 then Outcome(st, Some(NameTooShort))
    else if !ValidateEmail(email) then Outcome(st, Some(InvalidEmail))
    else if EmailRegistered(st.users, email) then Outcome(st, Some(EmailAlreadyRegistered))
    else if !ValidatePassword(password) then Outcome(st, Some(PasswordTooShort))
    else if password != confirmPassword then Outcome(st, Some(PasswordsDoNotMatch))
    else
      var account := Account(name, email, HashPassword(sha256, password));
      Outcome(Store(st.users + [account], st.blogPosts, Some(Session(name, email))), None)
  }

  /** `u.email === email && u.password === hashedPassword`. */
  predicate Matches(a: Account, email: string, digest: string) {
    a.email == email && a.password == digest
  }

  /** `users.find(...)` from index `from` on: the first matching account. */
  function FindAccount(users: seq<Account>, email: string, digest: string, from: nat): (r: Option<nat>)
    requires from <= |users|
    ensures r.Some? ==> from <= r.value < |users| && Matches(users[r.value], email, digest)
    ensures r.Some? ==> forall j :: from <= j < r.value ==> !Matches(users[j], email, digest)
    ensures r.None? ==> forall j :: from <= j < |users| ==> !Matches(users[j], email, digest)
    decreases |users| - from
  {
    if from == |users| then None
    else if Matches(users[from], email, digest) then Some(from)
    else FindAccount(users, email, digest, from + 1)
  }

  /** The login handler: the two format checks come first and do not look
      at the stored accounts; then the first account with this email and
      this password's digest, if any, becomes the session. */
  function Login(sha256: Sha256, st: Store, email: string, password: string): (r: Outcome)
    ensures !ValidateEmail(email) ==> r.error == Some(InvalidEmail)
    ensures ValidateEmail(email) && !ValidatePassword(password) ==> r.error == Some(PasswordTooShort)
    ensures r.error.None? <==>
              && ValidateEmail(email) && ValidatePassword(password)
              && exists i :: 0 <= i < |st.users| && Matches(st.users[i], email, HashPassword(sha256, password))
    ensures r.error.Some? ==> r.store == st
    ensures ValidateEmail(email) && ValidatePassword(password) && r.error.Some? ==> r.error == Some(InvalidCredentials)
    ensures r.error.None? ==>
              var found := FindAccount(st.users, email, HashPassword(sha256, password), 0);
              found.Some? && r.store.currentUser == Some(Session(st.users[found.value].name, email))
    ensures r.error.None? ==> r.store.users == st.users && r.store.blogPosts == st.blogPosts
  {
    if !ValidateEmail(email) then Outcome(st, Some(InvalidEmail))
    else if !ValidatePassword(password) then Outcome(st, Some(PasswordTooShort))
    else
      match FindAccount(st.users, email, HashPassword(sha256, password), 0)
      case None => Outcome(st, Some(InvalidCredentials))
      case Some(i) =>
        var user := st.users[i];
        Outcome(Store(st.users, st.blogPosts, Some(Session(user.name, user.email))), None)
  }

  /** The logout button: the session ends, nothing else changes. */
  function Logout(st: Store): (r: Store)
    ensures r.currentUser.None?
    ensures r.users == st.users && r.blogPosts == st.blogPosts
  {
    Store(st.users, st.blogPosts, None)
  }

  /** With distinct emails, a wrong password for a registered address is
      rejected with the same message as an unknown address. */
  lemma WrongPasswordRejected(sha256: Sha256, st: Store, i: int, password: string)
    requires DistinctEmails(st.users)
    requires 0 <= i < |st.users|
    requires ValidateEmail(st.users[i].email) && ValidatePassword(password)
    requires st.users[i].password != HashPassword(sha256, password)
    ensures Login(sha256, st, st.users[i].email, password) == Outcome(st, Some(InvalidCredentials))
  {
  }

  /** With distinct emails, the right password for a registered address
      logs in as exactly that account. */
  lemma LoginNamesTheAccount(sha256: Sha256, st: Store, i: int, password: string)
    requires DistinctEmails(st.users)
    requires 0 <= i < |st.users|
    requires ValidateEmail(st.users[i].email) && ValidatePassword(password)
    requires st.users[i].password == HashPassword(sha256, password)
    ensures var r := Login(sha256, st, st.users[i].email, password);
            r.error.None? && r.store.currentUser == Some(Session(st.users[i].name, st.users[i].email))
  {
  }

  /** A failed login does not reveal whether the address is registered: the
      message depends only on the two format checks. */
  lemma LoginFailureIsUniform(sha256: Sha256, st1: Store, st2: Store, email: string, password: string)
    requires Login(sha256, st1, email, password).error.Some?
    requires Login(sha256, st2, email, password).error.Some?
    ensures Login(sha256, st1, email, password).error == Login(sha256, st2, email, password).error
  {
  }

  /** A fresh account can log in with the password it was created with, and
      the session names it, whatever other accounts exist. */
  lemma {:induction false} SignupThenLogin(sha256: Sha256, st: Store, name: string, email: string, password: string)
    requires Signup(sha256, st, name, email, password, password).error.None?
    ensures var st1 := Logout(Signup(sha256, st, name, email, password, password).store);
            var r := Login(sha256, st1, email, password);
            r.error.None? && r.store.currentUser == Some(Session(name, email))
  {
  }
}

=== FILE: hashing.dfy ===
/** `hashPassword`: the SHA-256 digest of the password, as lower-case hex.
    The digest itself is computed by the browser (`crypto.subtle.digest` over
    the UTF-8 bytes); the model receives it as the function parameter
    `sha256`, about which nothing is known except that it is a function with
    32-byte results. Only the hex step is defined here. */
module Hashing {
  import opened Options
  import opened Hex

  type Digest = d: seq<byte> | |d| == 32 witness seq(32, _ => 0)

  type Sha256 = string -> Digest

  /** A stored password: 64 lower-case hex characters. */
  predicate IsDigestHex(s: string) {
    |s| == 64 && IsLowerHex(s)
  }

  function HashPassword(sha256: Sha256, password: string): (h: string)
    ensures IsDigestHex(h)
    ensures Decode(h) == Some(sha256(password))
  {
    DecodeEncode(sha256(password));
    Encode(sha256(password))
  }

  /** Two passwords hash to the same text exactly when their digests agree:
      the hex step neither merges nor splits digests. */
  lemma HashPasswordMatchesDigest(sha256: Sha256, p: string, q: string)
    ensures HashPassword(sha256, p) == HashPassword(sha256, q) <==> sha256(p) == sha256(q)
  {
  }
}

=== FILE: hex.dfy ===
/** Lower-case hexadecimal text for byte strings, as the password hasher
    builds it from a digest: every byte through `Number.prototype.toString(16)`
    and `String.prototype.padStart(2, '0')`, the pieces joined in order.
    `Decode` is the inverse, used to state that the encoding loses nothing. */
module Hex {
  import opened Options

  type byte = b: int | 0 <= b < 256

  predicate IsHexChar(c: char) {
    '0' <= c <= '9' || 'a' <= c <= 'f'
  }

  predicate IsLowerHex(s: string) {
    forall i :: 0 <= i < |s| ==> IsHexChar(s[i])
  }

  /** The digit character of a value below 16: `0`-`9`, then `a`-`f`, the
      lower-case digits `toString(16)` uses. */
  function DigitChar(n: int): (c: char)
    requires 0 <= n < 16
    ensures IsHexChar(c)
  {
    if n < 10 then ('0' as int + n) as char else ('a' as int + n - 10) as char
  }

  /** The value of a lower-case hex digit, if `c` is one. */
  function DigitValue(c: char): (r: Option<int>)
    ensures r.Some? <==> IsHexChar(c)
    ensures r.Some? ==> 0 <= r.value < 16 && DigitChar(r.value) == c
  {
    if '0' <= c <= '9' then Some(c as int - '0' as int)
    else if 'a' <= c <= 'f' then Some(c as int - 'a' as int + 10)
    else None
  }

  lemma DigitRoundTrip(n: int)
    requires 0 <= n < 16
    ensures DigitValue(DigitChar(n)) == Some(n)
  {
  }

  /** `b.toString(16)`: the shortest base-16 numeral, so one digit below 16
      and no leading zero above. */
  function ToBase16(b: byte): (r: string)
    ensures |r| == (if b < 16 then 1 else 2)
    ensures IsLowerHex(r)
    ensures b >= 16 ==> r[0] != '0'
    ensures |r| == 1 ==> DigitValue(r[0]) == Some(b)
    ensures |r| == 2 ==> DigitValue(r[0]) == Some(b / 16) && DigitValue(r[1]) == Some(b % 16)
  {
    if b < 16 then [DigitChar(b)] else [DigitChar(b / 16), DigitChar(b % 16)]
  }

  /** `s.padStart(width, fill)` for a one-character `fill`. */
  function PadStart(s: string, width: nat, fill: char): (r: string)
    ensures |r| == (if |s| >= width then |s| else width)
    ensures r[|r| - |s|..] == s
    ensures forall i :: 0 <= i < |r| - |s| ==> r[i] == fill
  {
    if |s| >= width then s else seq(width - |s|, _ => fill) + s
  }

  /** One byte as two hex digits, most significant first. */
  function ByteToHex(b: byte): (r: string)
    ensures r == [DigitChar(b / 16), DigitChar(b % 16)]
    ensures b < 16 ==> r[0] == '0'
  {
    PadStart(ToBase16(b), 2, '0')
  }

  /** The digest's `map(...).join('')`. */
  function Encode(bytes: seq<byte>): (r: string)
    ensures |r| == 2 * |bytes|
    ensures IsLowerHex(r)
  {
    if bytes == [] then [] else ByteToHex(bytes[0]) + Encode(bytes[1..])
  }

  /** Reads pairs of lower-case hex digits back into bytes; `None` for text of
      odd length or with any other character. */
  function Decode(s: string): (r: Option<seq<byte>>)
    ensures r.Some? ==> 2 * |r.value| == |s|
    decreases |s|
  {
    if |s| < 2 then (if s == [] then Some([]) else None)
    else
      var hi, lo, rest := DigitValue(s[0]), DigitValue(s[1]), Decode(s[2..]);
      if hi.Some? && lo.Some? && rest.Some? then Some([hi.value * 16 + lo.value] + rest.value) else None
  }

  lemma {:induction false} DecodeEncode(bytes: seq<byte>)
    ensures Decode(Encode(bytes)) == Some(bytes)
  {
    if bytes != [] {
      var b, rest := bytes[0], bytes[1..];
      DecodeEncode(rest);
      var s := Encode(bytes);
      assert s == ByteToHex(b) + Encode(rest);
      assert s[2..] == Encode(rest);
      DigitRoundTrip(b / 16);
      DigitRoundTrip(b % 16);
      assert DigitValue(s[0]) == Some(b / 16) && DigitValue(s[1]) == Some(b % 16);
      assert b / 16 * 16 + b % 16 == b;
      assert Decode(s) == Some([b] + rest);
      assert bytes == [b] + rest;
    }
  }

  lemma {:induction false} EncodeDecode(s: string)
    requires Decode(s).Some?
    ensures Encode(Decode(s).value) == s
    decreases |s|
  {
    if s != [] {
      var hi, lo := DigitValue(s[0]).value, DigitValue(s[1]).value;
      var bytes := Decode(s).value;
      EncodeDecode(s[2..]);
      assert bytes == [hi * 16 + lo] + Decode(s[2..]).value;
      SplitByte(hi, lo);
      assert ByteToHex(bytes[0]) == s[..2];
      assert s == s[..2] + s[2..];
    }
  }

  /** Two digits make one byte whose quotient and remainder by 16 are the
      digits again. */
  lemma SplitByte(hi: int, lo: int)
    requires 0 <= hi < 16 && 0 <= lo < 16
    ensures (hi * 16 + lo) / 16 == hi && (hi * 16 + lo) % 16 == lo
  {
  }

  /** Distinct byte strings never share an encoding. */
  lemma EncodeInjective(a: seq<byte>, b: seq<byte>)
    ensures Encode(a) == Encode(b) <==> a == b
  {
    DecodeEncode(a);
    DecodeEncode(b);
  }

  /** A 32-byte SHA-256 digest becomes 64 characters. */
  lemma EncodeDigestLength(digest: seq<byte>)
    requires |digest| == 32
    ensures |Encode(digest)| == 64
  {
  }
}

=== FILE: options.dfy ===
/** The optional value used for "maybe absent" results: a missing session, a
    search that found nothing, a string that is not valid hex. */
module Options {

  datatype Option<+T> = None | Some(value: T)
}

=== FILE: posts.dfy ===
/** Creating and deleting posts. `confirm()` dialogs become a `confirmed`
    parameter, the wall-clock date of a new post a `date` parameter, and the
    compressed image an `ImageUpload`. Post ids are `length + 1` at creation
    and so can repeat after a deletion; nothing here assumes they are
    unique. */
module Posts {
  import opened Options
  import opened RecordStore
  import opened Seqs

  /** The image field of the form: no file, a file compressed to a data
      URL, or a file the browser could not decode or re-encode. */
  datatype ImageUpload = NoImage | Compressed(dataUrl: string) | Unreadable

  function IdIsNot(id: int): Post -> bool {
    (p: Post) => p.id != id
  }

  function AuthorIs(name: string): Post -> bool {
    (p: Post) => p.author == name
  }

  function AuthorIsNot(name: string): Post -> bool {
    (p: Post) => p.author != name
  }

  /** The create-post handler: empty fields are rejected first, then an
      image that failed to compress, and only then a missing session. A new
      post goes to the front with id `|blogPosts| + 1`. */
  function CreatePost(st: Store, title: string, content: string, image: ImageUpload, date: string): (r: Outcome)
    ensures title == [] || content == [] ==> r.error == Some(MissingFields)
    ensures title != [] && content != [] && image.Unreadable? ==> r.error == Some(ImageProcessingFailed)
    ensures title != [] && content != [] && !image.Unreadable? && st.currentUser.None? ==> r.error == Some(NotLoggedIn)
    ensures r.error.None? <==> title != [] && content != [] && !image.Unreadable? && st.currentUser.Some?
    ensures r.error.Some? ==> r.store == st
    ensures r.error.None? ==>
              && |r.store.blogPosts| == |st.blogPosts| + 1
              && r.store.blogPosts[0].id == |st.blogPosts| + 1
              && r.store.blogPosts[0].author == st.currentUser.value.name
              && r.store.blogPosts[0].title == title && r.store.blogPosts[0].content == content
              && r.store.blogPosts[0].image == (if image.Compressed? then image.dataUrl else "")
              && r.store.blogPosts[0].date == date
              && r.store.blogPosts[1..] == st.blogPosts
              && r.store.users == st.users && r.store.currentUser == st.currentUser
  {
    if title == [] || content == [] then Outcome(st, Some(MissingFields))
    else if image.Unreadable? then Outcome(st, Some(ImageProcessingFailed))
    else
      var imageData := if image.Compressed? then image.dataUrl else "";
      match st.currentUser
      case None => Outcome(st, Some(NotLoggedIn))
      case Some(user) =>
        var post := Post(|st.blogPosts| + 1, title, imageData, content, user.name, date);
        Outcome(Store(st.users, [post] + st.blogPosts, st.currentUser), None)
  }

  /** `deletePost(id)`: after confirmation, every post with this id goes,
      whoever wrote it and whoever is logged in; the rest keep their order. */
  function DeletePost(st: Store, id: int, confirmed: bool): (r: Store)
    ensures !confirmed ==> r == st
    ensures r.users == st.users && r.currentUser == st.currentUser
    ensures confirmed ==> IsFilterOf(r.blogPosts, st.blogPosts, IdIsNot(id))
    ensures confirmed ==> forall i :: 0 <= i < |r.blogPosts| ==> r.blogPosts[i].id != id
    ensures confirmed ==> forall p :: p in st.blogPosts && p.id != id ==> p in r.blogPosts
  {
    if confirmed then Store(st.users, Filter(IdIsNot(id), st.blogPosts), st.currentUser) else st
  }

  /** `deleteAllUserPosts`: refused without a session; after confirmation,
      the posts whose author equals the session's name go and all others
      stay, in order. A post counts by its author name alone, so it may have
      been written under another account with the same name. */
  function DeleteAllUserPosts(st: Store, confirmed: bool): (r: Outcome)
    ensures st.currentUser.None? ==> r == Outcome(st, Some(NotLoggedIn))
    ensures st.currentUser.Some? ==> r.error.None?
    ensures !confirmed ==> r.store == st
    ensures r.store.users == st.users && r.store.currentUser == st.currentUser
    ensures st.currentUser.Some? && confirmed ==>
              && IsFilterOf(r.store.blogPosts, st.blogPosts, AuthorIsNot(st.currentUser.value.name))
              && |r.store.blogPosts| == |st.blogPosts| - |Filter(AuthorIs(st.currentUser.value.name), st.blogPosts)|
  {
    match st.currentUser
    case None => Outcome(st, Some(NotLoggedIn))
    case Some(user) =>
      if confirmed then
        FilterPartition(AuthorIsNot(user.name), AuthorIs(user.name), st.blogPosts);
        Outcome(Store(st.users, Filter(AuthorIsNot(user.name), st.blogPosts), st.currentUser), None)
      else Outcome(st, None)
  }

  /** Deleting an id a second time changes nothing more. */
  lemma DeletePostIdempotent(st: Store, id: int)
    ensures DeletePost(DeletePost(st, id, true), id, true) == DeletePost(st, id, true)
  {
    FilterIdempotent(IdIsNot(id), st.blogPosts);
  }

  /** The result of `DeletePost` is the only sequence that keeps exactly
      the other ids, with their multiplicities, in order. */
  lemma DeletePostCharacterised(st: Store, id: int, survivors: seq<Post>)
    requires IsFilterOf(survivors, st.blogPosts, IdIsNot(id))
    ensures DeletePost(st, id, true).blogPosts == survivors
  {
    FilterUnique(survivors, st.blogPosts, IdIsNot(id));
  }
}

=== FILE: seqs.dfy ===
/** Order-preserving selection on sequences, the model of JavaScript's
    `Array.prototype.filter`, with an independent characterisation of its
    result (a subsequence holding exactly the kept elements) and a proof that
    the characterisation determines the result. */
module Seqs {

  /** `a` can be obtained from `b` by deleting elements, keeping the order of
      the rest. Matches greedily, which loses no solutions. */
  predicate IsSubsequence<T(==)>(a: seq<T>, b: seq<T>)
    decreases |b|
  {
    if a == [] then true
    else if b == [] then false
    else if a[0] == b[0] then IsSubsequence(a[1..], b[1..])
    else IsSubsequence(a, b[1..])
  }

  /** The independent description of a filter result: the kept elements of
      `s`, each with its multiplicity in `s`, nothing else, in the order of `s`. */
  ghost predicate IsFilterOf<T(!new)>(r: seq<T>, s: seq<T>, keep: T -> bool) {
    && IsSubsequence(r, s)
    && (forall i :: 0 <= i < |r| ==> keep(r[i]))
    && (forall x :: multiset(r)[x] == if keep(x) then multiset(s)[x] else 0)
  }

  /** The elements of `s` for which `keep` holds, in their original order. */
  function Filter<T(!new)>(keep: T -> bool, s: seq<T>): (r: seq<T>)
    ensures |r| <= |s|
    ensures IsSubsequence(r, s)
    ensures forall i :: 0 <= i < |r| ==> keep(r[i])
    ensures forall x :: multiset(r)[x] == if keep(x) then multiset(s)[x] else 0
    ensures forall x :: x in r <==> x in s && keep(x)
    decreases |s|
  {
    if s == [] then []
    else
      assert s == [s[0]] + s[1..];
      if keep(s[0]) then [s[0]] + Filter(keep, s[1..]) else Filter(keep, s[1..])
  }

  /** A subsequence never holds an element more often than the sequence. */
  lemma {:induction false} SubsequenceCounts<T>(a: seq<T>, b: seq<T>)
    requires IsSubsequence(a, b)
    ensures multiset(a) <= multiset(b)
    decreases |b|
  {
    if a == [] {
    } else if b == [] {
    } else {
      assert b == [b[0]] + b[1..];
      if a[0] == b[0] {
        assert a == [a[0]] + a[1..];
        SubsequenceCounts(a[1..], b[1..]);
      } else {
        SubsequenceCounts(a, b[1..]);
      }
    }
  }

  /** Only one sequence fits the description `IsFilterOf`: it is `Filter`'s
      result. */
  lemma {:induction false} FilterUnique<T(!new)>(r: seq<T>, s: seq<T>, keep: T -> bool)
    requires IsFilterOf(r, s, keep)
    ensures r == Filter(keep, s)
    decreases |s|
  {
    if s == [] {
    } else {
      var x, t := s[0], s[1..];
      assert s == [x] + t;
      if keep(x) {
        assert multiset(r)[x] == multiset(s)[x] > 0;
        assert r != [];
        if r[0] == x {
          assert r == [x] + r[1..];
          forall y
            ensures multiset(r[1..])[y] == if keep(y) then multiset(t)[y] else 0
          {
            assert multiset(r)[y] == multiset{x}[y] + multiset(r[1..])[y];
            assert multiset(s)[y] == multiset{x}[y] + multiset(t)[y];
          }
          FilterUnique(r[1..], t, keep);
        } else {
          assert IsSubsequence(r, t);
          SubsequenceCounts(r, t);
          assert false;
        }
      } else {
        if r != [] {
          assert keep(r[0]);
          assert r[0] != x;
        }
        assert IsSubsequence(r, t);
        forall y
          ensures multiset(r)[y] == if keep(y) then multiset(t)[y] else 0
        {
          assert multiset(s)[y] == multiset{x}[y] + multiset(t)[y];
        }
        FilterUnique(r, t, keep);
      }
    }
  }

  /** Filtering twice with the same test removes nothing more. */
  lemma {:induction false} FilterIdempotent<T(!new)>(keep: T -> bool, s: seq<T>)
    ensures Filter(keep, Filter(keep, s)) == Filter(keep, s)
    decreases |s|
  {
    if s != [] {
      FilterIdempotent(keep, s[1..]);
    }
  }

  /** Splitting `s` by a test and by its negation accounts for every element
      exactly once. */
  lemma {:induction false} FilterPartition<T(!new)>(keep: T -> bool, drop: T -> bool, s: seq<T>)
    requires forall x :: drop(x) == !keep(x)
    ensures |Filter(keep, s)| + |Filter(drop, s)| == |s|
    decreases |s|
  {
    if s != [] {
      FilterPartition(keep, drop, s[1..]);
    }
  }
}

=== FILE: store.dfy ===
/** The three values the blog keeps, the errors its forms report, and the
    state it starts from. Each mutation in the source saves the changed value
    to `localStorage` at once; the model treats the stored copy as equal to
    the in-memory one, so a `Store` is both. */
module RecordStore {
  import opened Options

  /** A registered user; `password` holds the hex digest, never the text. */
  datatype Account = Account(name: string, email: string, password: string)

  /** The logged-in user: the public fields of an account. */
  datatype Session = Session(name: string, email: string)

  /** `author` is a copy of the session name at creation, not a reference to
      an account; `image` is a data URL or empty. */
  datatype Post = Post(id: int, title: string, image: string, content: string, author: string, date: string)

  datatype Store = Store(users: seq<Account>, blogPosts: seq<Post>, currentUser: Option<Session>)

  /** The messages the forms show, one constructor per message. */
  datatype Error =
    | NameTooShort
    | InvalidEmail
    | EmailAlreadyRegistered
    | PasswordTooShort
    | PasswordsDoNotMatch
    | InvalidCredentials
    | MissingFields
    | ImageProcessingFailed
    | NotLoggedIn

  /** The store after an operation, and the error it reported, if any. */
  datatype Outcome = Outcome(store: Store, error: Option<Error>)

  /** The two example posts shown before anything has been saved. */
  const FirstSample: Post :=
    Post(1, "My First Day in the City",
         "https://images.unsplash.com/photo-1519501025264-65ba15a82390",
         "Today was my first day exploring the city. The architecture was amazing and the people were so friendly...",
         "pankaj tripathi", "2024-03-15")

  const SecondSample: Post :=
    Post(2, "Cooking Adventures",
         "https://images.unsplash.com/photo-1546069901-ba9599a7e63c",
         "Tried making pasta from scratch today. It was a messy but fun experience...",
         "Amit sharma", "2024-03-14")

  function SamplePosts(): (ps: seq<Post>)
    ensures |ps| == 2 && ps[0].id == 1 && ps[1].id == 2
  {
    [FirstSample, SecondSample]
  }

  /** The store at page load, from the three saved records (`None` when a
      record was never saved). `JSON.parse(...) || fallback` falls back only
      on a missing record: a saved empty list is kept, since `[]` is truthy. */
  function Load(savedUsers: Option<seq<Account>>, savedPosts: Option<seq<Post>>, savedUser: Option<Session>): (st: Store)
    ensures savedUsers.None? ==> st.users == []
    ensures savedUsers.Some? ==> st.users == savedUsers.value
    ensures savedPosts.None? ==> st.blogPosts == SamplePosts()
    ensures savedPosts.Some? ==> st.blogPosts == savedPosts.value
    ensures st.currentUser == savedUser
  {
    Store(
      match savedUsers case Some(us) => us case None => [],
      match savedPosts case Some(ps) => ps case None => SamplePosts(),
      savedUser)
  }
}

=== FILE: traces.dfy ===
/** The page as a state machine: every form submission or button press is a
    `Command`, `Step` applies one to the store, `Run` applies a sequence. The
    invariant `Consistent` holds of the store a first visit loads and is kept
    by every command, so it holds after any sequence of them. */
module Traces {
  import opened Options
  import opened RecordStore
  import opened Validation
  import opened Hashing
  import opened Accounts
  import opened Posts
  import opened Seqs

  datatype Command =
    | SignUp(name: string, email: string, password: string, confirmPassword: string)
    | LogIn(email: string, password: string)
    | LogOut
    | NewPost(title: string, content: string, image: ImageUpload, date: string)
    | Delete(id: int, confirmed: bool)
    | DeleteAllMine(confirmed: bool)

  function Step(sha256: Sha256, st: Store, c: Command): Store {
    match c
    case SignUp(name, email, password, confirmPassword) => Signup(sha256, st, name, email, password, confirmPassword).store
    case LogIn(email, password) => Login(sha256, st, email, password).store
    case LogOut => Logout(st)
    case NewPost(title, content, image, date) => CreatePost(st, title, content, image, date).store
    case Delete(id, confirmed) => DeletePost(st, id, confirmed)
    case DeleteAllMine(confirmed) => DeleteAllUserPosts(st, confirmed).store
  }

  function Run(sha256: Sha256, st: Store, commands: seq<Command>): Store
    decreases |commands|
  {
    if commands == [] then st else Run(sha256, Step(sha256, st, commands[0]), commands[1..])
  }

  /** An account as sign-up creates it. */
  ghost predicate AccountWellFormed(a: Account) {
    |a.name| >= 3 && ValidateEmail(a.email) && IsDigestHex(a.password)
  }

  /** A post as the sample data or the create form makes it. */
  ghost predicate PostWellFormed(p: Post) {
    p.id >= 1 && p.title != [] && p.content != []
  }

  /** The session names a registered account. */
  ghost predicate SessionBacked(users: seq<Account>, session: Session) {
    exists i :: 0 <= i < |users| && users[i].name == session.name && users[i].email == session.email
  }

  ghost predicate Consistent(st: Store) {
    && DistinctEmails(st.users)
    && (forall i :: 0 <= i < |st.users| ==> AccountWellFormed(st.users[i]))
    && (forall i :: 0 <= i < |st.blogPosts| ==> PostWellFormed(st.blogPosts[i]))
    && (st.currentUser.Some? ==> SessionBacked(st.users, st.currentUser.value))
  }

  /** A first visit, with nothing saved, starts consistent. */
  lemma FirstVisitConsistent()
    ensures Consistent(Load(None, None, None))
  {
    var ps := SamplePosts();
    assert PostWellFormed(ps[0]) && PostWellFormed(ps[1]);
  }

  lemma SignupKeepsConsistent(sha256: Sha256, st: Store, name: string, email: string, password: string, confirmPassword: string)
    requires Consistent(st)
    ensures Consistent(Signup(sha256, st, name, email, password, confirmPassword).store)
  {
    var r := Signup(sha256, st, name, email, password, confirmPassword);
    if r.error.None? {
      var n := |st.users|;
      assert r.store.users[n] == Account(name, email, HashPassword(sha256, password));
      assert SessionBacked(r.store.users, Session(name, email));
      assert forall i :: 0 <= i < n ==> r.store.users[i] == st.users[i];
    }
  }

  lemma LoginKeepsConsistent(sha256: Sha256, st: Store, email: string, password: string)
    requires Consistent(st)
    ensures Consistent(Login(sha256, st, email, password).store)
  {
  }

  lemma CreatePostKeepsConsistent(st: Store, title: string, content: string, image: ImageUpload, date: string)
    requires Consistent(st)
    ensures Consistent(CreatePost(st, title, content, image, date).store)
  {
    var r := CreatePost(st, title, content, image, date);
    if r.error.None? {
      assert forall i :: 1 <= i < |r.store.blogPosts| ==> r.store.blogPosts[i] == st.blogPosts[i - 1];
    }
  }

  lemma DeletePostKeepsConsistent(st: Store, id: int, confirmed: bool)
    requires Consistent(st)
    ensures Consistent(DeletePost(st, id, confirmed))
  {
    var ps := DeletePost(st, id, confirmed).blogPosts;
    assert forall i :: 0 <= i < |ps| ==> ps[i] in st.blogPosts;
  }

  lemma DeleteAllKeepsConsistent(st: Store, confirmed: bool)
    requires Consistent(st)
    ensures Consistent(DeleteAllUserPosts(st, confirmed).store)
  {
    var ps := DeleteAllUserPosts(st, confirmed).store.blogPosts;
    assert forall i :: 0 <= i < |ps| ==> ps[i] in st.blogPosts;
  }

  lemma StepPreservesConsistent(sha256: Sha256, st: Store, c: Command)
    requires Consistent(st)
    ensures Consistent(Step(sha256, st, c))
  {
    match c
    case SignUp(name, email, password, confirmPassword) =>
      SignupKeepsConsistent(sha256, st, name, email, password, confirmPassword);
    case LogIn(email, password) =>
      LoginKeepsConsistent(sha256, st, email, password);
    case LogOut =>
    case NewPost(title, content, image, date) =>
      CreatePostKeepsConsistent(st, title, content, image, date);
    case Delete(id, confirmed) =>
      DeletePostKeepsConsistent(st, id, confirmed);
    case DeleteAllMine(confirmed) =>
      DeleteAllKeepsConsistent(st, confirmed);
  }

  lemma {:induction false} RunPreservesConsistent(sha256: Sha256, st: Store, commands: seq<Command>)
    requires Consistent(st)
    ensures Consistent(Run(sha256, st, commands))
    decreases |commands|
  {
    if commands != [] {
      StepPreservesConsistent(sha256, st, commands[0]);
      RunPreservesConsistent(sha256, Step(sha256, st, commands[0]), commands[1..]);
    }
  }

  /** Accounts are never removed or altered: the accounts before a run are a
      prefix of the accounts after it. */
  lemma {:induction false} RunKeepsAccounts(sha256: Sha256, st: Store, commands: seq<Command>)
    ensures st.users <= Run(sha256, st, commands).users
    decreases |commands|
  {
    if commands != [] {
      var st' := Step(sha256, st, commands[0]);
      assert st.users <= st'.users;
      RunKeepsAccounts(sha256, st', commands[1..]);
    }
  }

  /** Authorship is by display name and sign-up never checks names: on a
      first visit, a new account named like the author of a sample post
      deletes that post with the delete-all of its session. */
  lemma SharedNameDeletesOthersPosts(sha256: Sha256)
    ensures var signup := Signup(sha256, Load(None, None, None), "Amit sharma", "x@y.co", "secret", "secret");
            && signup.error.None?
            && DeleteAllUserPosts(signup.store, true).store.blogPosts == [FirstSample]
  {
    assert ValidateEmail("x@y.co") by {
      assert EmailSplit("x@y.co", 1, 3);
    }
    SamplesWithoutSecondAuthor();
  }

  lemma SamplesWithoutSecondAuthor()
    ensures Filter(AuthorIsNot("Amit sharma"), [FirstSample, SecondSample]) == [FirstSample]
  {
    assert FirstSample.author[0] == 'p';
    assert Filter(AuthorIsNot("Amit sharma"), [SecondSample]) == [];
    assert [FirstSample, SecondSample][1..] == [SecondSample];
  }

  /** Ids can repeat: on a first visit, a visitor signs up, deletes sample
      post 1 and creates a post, which gets id 2, the id of the surviving
      sample; deleting id 2 then removes both posts. */
  lemma PostIdsCanRepeat(sha256: Sha256, name: string, title: string, content: string, date: string)
    requires |name| >= 3 && title != [] && content != []
    ensures var signup := Signup(sha256, Load(None, None, None), name, "x@y.co", "secret", "secret");
            var st1 := DeletePost(signup.store, 1, true);
            var st2 := CreatePost(st1, title, content, NoImage, date).store;
            && signup.error.None?
            && |st2.blogPosts| == 2
            && st2.blogPosts[0].id == 2 && st2.blogPosts[1].id == 2
            && DeletePost(st2, 2, true).blogPosts == []
  {
    assert ValidateEmail("x@y.co") by {
      assert EmailSplit("x@y.co", 1, 3);
    }
    var signup := Signup(sha256, Load(None, None, None), name, "x@y.co", "secret", "secret");
    SamplesRepeatIds(signup.store, title, content, date);
  }

  /** The post steps of `PostIdsCanRepeat`, from any logged-in store that
      holds exactly the sample posts. */
  lemma SamplesRepeatIds(st: Store, title: string, content: string, date: string)
    requires st.blogPosts == [FirstSample, SecondSample] && st.currentUser.Some?
    requires title != [] && content != []
    ensures var st1 := DeletePost(st, 1, true);
            var st2 := CreatePost(st1, title, content, NoImage, date).store;
            && |st2.blogPosts| == 2
            && st2.blogPosts[0].id == 2 && st2.blogPosts[1].id == 2
            && DeletePost(st2, 2, true).blogPosts == []
  {
  }

  /** The Anonymous/Authenticated transitions: only a successful sign-up or
      login authenticates, logout makes the page anonymous, and the post
      commands never touch the session. */
  lemma SessionTransitions(sha256: Sha256, st: Store, c: Command)
    ensures c.LogOut? ==> Step(sha256, st, c).currentUser.None?
    ensures c.NewPost? || c.Delete? || c.DeleteAllMine? ==> Step(sha256, st, c).currentUser == st.currentUser
    ensures c.SignUp? ==> Step(sha256, st, c).currentUser == st.currentUser || Step(sha256, st, c).currentUser == Some(Session(c.name, c.email))
    ensures c.LogIn? ==> Step(sha256, st, c).currentUser == st.currentUser || Step(sha256, st, c).currentUser.value.email == c.email
  {
  }
}

=== FILE: validation.dfy ===
/** The two input validators of the sign-up and login forms. `ValidateEmail`
    decides the regular expression
        ^[a-zA-Z0-9._%+-]+@[a-zA-Z0-9.-]+\.[a-zA-Z]{2,}$
    by locating the first `@` and the last `.`; `MatchesEmailPattern` states
    the expression's meaning directly, as a split of the string into its
    parts, and `LandmarksDecidePattern` proves the two agree. */
module Validation {
  import opened Options

  predicate IsAsciiLetter(c: char) {
    'a' <= c <= 'z' || 'A' <= c <= 'Z'
  }

  predicate IsAsciiDigit(c: char) {
    '0' <= c <= '9'
  }

  /** The class `[a-zA-Z0-9._%+-]` of the part before the `@`. */
  predicate IsLocalChar(c: char) {
    IsAsciiLetter(c) || IsAsciiDigit(c) || c == '.' || c == '_' || c == '%' || c == '+' || c == '-'
  }

  /** The class `[a-zA-Z0-9.-]` of the domain before the last dot. */
  predicate IsDomainChar(c: char) {
    IsAsciiLetter(c) || IsAsciiDigit(c) || c == '.' || c == '-'
  }

  predicate AllLocal(s: string) {
    forall i :: 0 <= i < |s| ==> IsLocalChar(s[i])
  }

  predicate AllDomain(s: string) {
    forall i :: 0 <= i < |s| ==> IsDomainChar(s[i])
  }

  predicate AllLetters(s: string) {
    forall i :: 0 <= i < |s| ==> IsAsciiLetter(s[i])
  }

  /** `s` splits at `at` and `dot` into a non-empty local part, the `@`, a
      non-empty domain, the `.`, and at least two letters up to the end. */
  ghost predicate EmailSplit(s: string, at: int, dot: int) {
    && 0 < at && at + 1 < dot && dot + 2 < |s|
    && s[at] == '@' && s[dot] == '.'
    && AllLocal(s[..at]) && AllDomain(s[at + 1..dot]) && AllLetters(s[dot + 1..])
  }

  /** What the regular expression accepts, stated without a search strategy. */
  ghost predicate MatchesEmailPattern(s: string) {
    exists at, dot :: EmailSplit(s, at, dot)
  }

  /** The first index at or after `from` holding `c`. */
  function IndexOf(s: string, c: char, from: nat): (r: Option<nat>)
    requires from <= |s|
    ensures r.Some? ==> from <= r.value < |s| && s[r.value] == c
    ensures r.Some? ==> forall j :: from <= j < r.value ==> s[j] != c
    ensures r.None? ==> forall j :: from <= j < |s| ==> s[j] != c
    decreases |s| - from
  {
    if from == |s| then None
    else if s[from] == c then Some(from)
    else IndexOf(s, c, from + 1)
  }

  /** The last index of `s` holding `c`. */
  function LastIndexOf(s: string, c: char): (r: Option<nat>)
    ensures r.Some? ==> r.value < |s| && s[r.value] == c
    ensures r.Some? ==> forall j :: r.value < j < |s| ==> s[j] != c
    ensures r.None? ==> forall j :: 0 <= j < |s| ==> s[j] != c
  {
    if s == [] then None
    else if s[|s| - 1] == c then Some(|s| - 1)
    else LastIndexOf(s[..|s| - 1], c)
  }

  /** The local part ends at the first `@` (no `@` can occur in either
      class), and the letters-only suffix starts after the last `.` (no `.`
      can occur in it), so checking the split at these two landmarks is
      enough. */
  function LandmarksAccept(email: string): bool {
    match IndexOf(email, '@', 0)
    case None => false
    case Some(at) =>
      match LastIndexOf(email, '.')
      case None => false
      case Some(dot) =>
        && 0 < at && at + 1 < dot && dot + 2 < |email|
        && AllLocal(email[..at]) && AllDomain(email[at + 1..dot]) && AllLetters(email[dot + 1..])
  }

  /** The landmark check accepts exactly the strings the regular expression
      matches. */
  lemma LandmarksDecidePattern(s: string)
    ensures LandmarksAccept(s) <==> MatchesEmailPattern(s)
  {
    if LandmarksAccept(s) {
      var at := IndexOf(s, '@', 0).value;
      var dot := LastIndexOf(s, '.').value;
      assert EmailSplit(s, at, dot);
    }
    if MatchesEmailPattern(s) {
      var at, dot :| EmailSplit(s, at, dot);
      assert forall j :: 0 <= j < at ==> s[j] == s[..at][j];
      assert forall j :: dot < j < |s| ==> s[j] == s[dot + 1..][j - dot - 1];
      assert IndexOf(s, '@', 0) == Some(at);
      assert LastIndexOf(s, '.') == Some(dot);
    }
  }

  /** `validateEmail`: true exactly when the regular expression matches. */
  function ValidateEmail(email: string): (ok: bool)
    ensures ok <==> MatchesEmailPattern(email)
  {
    LandmarksDecidePattern(email);
    LandmarksAccept(email)
  }

  /** `validatePassword`: at least six characters, so an accepted password
      is never empty. For text inside the Basic Multilingual Plane this is
      JavaScript's `.length`; a character outside it counts once here but
      twice there. */
  predicate ValidatePassword(password: string): (ok: bool)
    ensures ok <==> |password| >= 6
    ensures ok ==> password != []
  {
    |password| >= 6
  }

  /** What any accepted address looks like: exactly one `@`, with something
      before it, and a final run of at least two ASCII letters preceded by a
      `.`. */
  lemma AcceptedEmailShape(s: string)
    requires ValidateEmail(s)
    ensures multiset(s)['@'] == 1
    ensures s[0] != '@'
    ensures exists dot :: 0 < dot < |s| - 2 && s[dot] == '.' && AllLetters(s[dot + 1..])
  {
    var at, dot :| EmailSplit(s, at, dot);
    SplitHasOneAt(s, at, dot);
    assert s[0] == s[..at][0];
  }

  lemma SplitHasOneAt(s: string, at: int, dot: int)
    requires EmailSplit(s, at, dot)
    ensures multiset(s)['@'] == 1
  {
    var local, rest := s[..at], s[at + 1..];
    assert s == local + [s[at]] + rest;
    assert '@' !in local by {
      forall j | 0 <= j < |local| ensures local[j] != '@' {
        assert IsLocalChar(local[j]);
      }
    }
    NoAtAfter(s, at, dot);
    assert multiset(s) == multiset(local) + multiset{s[at]} + multiset(rest);
  }

  lemma NoAtAfter(s: string, at: int, dot: int)
    requires EmailSplit(s, at, dot)
    ensures '@' !in s[at + 1..]
  {
    var domain, tld := s[at + 1..dot], s[dot + 1..];
    assert s[at + 1..] == domain + ['.'] + tld;
    assert '@' !in domain by {
      forall j | 0 <= j < |domain| ensures domain[j] != '@' {
        assert IsDomainChar(domain[j]);
      }
    }
    assert '@' !in tld by {
      forall j | 0 <= j < |tld| ensures tld[j] != '@' {
        assert IsAsciiLetter(tld[j]);
      }
    }
  }

  /** The expression is permissive: a domain made only of dots passes. */
  lemma DotOnlyDomainAccepted()
    ensures ValidateEmail("a@..co")
  {
    assert EmailSplit("a@..co", 1, 3);
  }

  /** A one-letter top-level domain fails. */
  lemma OneLetterTldRejected()
    ensures !ValidateEmail("a@b.c")
  {
  }
}

=== FILE: views.dfy ===
/** The parts of the two post lists that are decisions rather than markup:
    which posts the create page lists, which cards on the home page get a
    delete button, and how much of the content a card shows. */
module Views {
  import opened Options
  import opened RecordStore
  import opened Seqs
  import opened Posts

  /** The list on the create page (`displayPostsList`): the posts whose
      author equals the session's name when logged in, every post
      otherwise. Authorship is by display name only, and names are not
      unique. */
  function MyPosts(st: Store): (r: seq<Post>)
    ensures st.currentUser.None? ==> r == st.blogPosts
    ensures st.currentUser.Some? ==> IsFilterOf(r, st.blogPosts, AuthorIs(st.currentUser.value.name))
  {
    match st.currentUser
    case None => st.blogPosts
    case Some(user) => Filter(AuthorIs(user.name), st.blogPosts)
  }

  /** A home-page card (`displayBlogPosts`) has a delete button only when
      someone is logged in and the post's author equals the session's name. */
  predicate ShowsDeleteButton(st: Store, p: Post): (shown: bool)
    ensures shown ==> st.currentUser.Some?
    ensures p in st.blogPosts && st.currentUser.Some? ==> (shown <==> p in MyPosts(st))
  {
    st.currentUser.Some? && p.author == st.currentUser.value.name
  }

  /** `content.substring(0, 100)`: the first 100 characters, or all of a
      shorter text. */
  function Excerpt(content: string): (r: string)
    ensures |r| == if |content| < 100 then |content| else 100
    ensures r <= content
  {
    if |content| <= 100 then content else content[..100]
  }

  /** Logged in, the home page offers deletion for exactly the posts the
      create page lists. */
  lemma DeleteButtonsMatchMyPosts(st: Store, p: Post)
    requires st.currentUser.Some?
    requires p in st.blogPosts
    ensures ShowsDeleteButton(st, p) <==> p in MyPosts(st)
  {
  }

  /** Logged out, the home page offers no deletion, yet the create-page
      selector returns every post, and `DeletePost` honours any id without
      a check. (On page load `checkAuth` sends a logged-out visitor of the
      create page to the login page, so that list is drawn only briefly.) */
  lemma LoggedOutListShowsEveryPost(st: Store, p: Post)
    requires st.currentUser.None?
    requires p in st.blogPosts
    ensures !ShowsDeleteButton(st, p)
    ensures p in MyPosts(st)
    ensures p !in DeletePost(st, p.id, true).blogPosts
  {
  }

  /** Deleting all posts under the session's name empties the create-page
      list, removes as many posts as that list held, and leaves every post
      under another author name in place. */
  lemma DeleteAllEmptiesMyPosts(st: Store)
    requires st.currentUser.Some?
    ensures var after := DeleteAllUserPosts(st, true).store;
            && MyPosts(after) == []
            && |st.blogPosts| - |after.blogPosts| == |MyPosts(st)|
            && forall p :: p in st.blogPosts && p.author != st.currentUser.value.name ==> p in after.blogPosts
  {
  }
}
